=== FILE: README.md ===
# CoopTimer server core in Dafny

This project models the core of the CoopTimer server (`server/TimerServer.py`).
The server keeps one shared stopwatch. The stopwatch is stopped, running or
paused. Every change is pushed to all connected clients. A client may send
`quit`. When a shared password is configured, a client may also send
`<password>pause` (toggle) and `<password>reset`. A log tailer watches the
game server's log. A line containing `Set the time to 0` starts the timer, and
a line containing `Stopping the server` resets it.

Everything is pure functions over immutable values:

- `Timer` (`timer.dfy`) holds the timer record and its transitions. Each
  transition takes the clock reading `now` (integer ticks) as a parameter.
  The module also states the non-negativity invariant over any run of
  operations.
- `Wire` (`wire.dfy`) holds the pushed texts: `end`, `stop` and
  `<status>:<elapsed>`. It also gives a client-side reading of them and
  proves the round trip.
- `Server` (`server.dfy`) holds the timer plus the client registry, a `seq`
  in connection order. Every transition returns the list of
  `(client, push)` sends it makes. The module also covers accepting a
  client and removing a client.
- `Session` (`session.dfy`) maps a received text to a command. It also
  models one pass of a client's receive loop, the whole loop, detaching
  from the server, and a stop started by the server.
- `Triggers` (`triggers.dfy`) holds the substring checker. A match returns
  the bound action as a label instead of calling it.
- `Tailer` (`tailer.dfy`) holds the line offset and the modification-time
  gate. A poll tick takes what it observes of the file as input.
- `Wiring` (`wiring.dfy`) covers the two rules the server starts with. It
  feeds the actions a tick fires into the server.

## Model

| member | source | states |
|---|---|---|
| Timer.Init | server/TimerServer.py:63-67 | a new server's timer is stopped with nothing kept, and it satisfies the non-negativity invariant |
| Timer.GetTime | server/TimerServer.py:139-145 | a stopped timer reads 0 even when a value is kept for its next start, and a well-formed timer never reads negative |
| Timer.ElapsedFollowsClock | server/TimerServer.py:139-145 | while running, the elapsed value grows tick for tick with the clock; while stopped or paused it does not depend on the clock, and stopped reads 0 |
| Timer.StartTimer | server/TimerServer.py:91-94 | the result is running; a running timer is left unchanged; resuming from paused keeps the elapsed value; starting from stopped counts on from the kept value |
| Timer.PauseTimer | server/TimerServer.py:103-106 | only a running timer becomes paused; the elapsed value at that instant is kept; from stopped or paused nothing changes |
| Timer.ResetTimer | server/TimerServer.py:97-100 | the result is stopped and reads 0 at every instant; startTime is untouched; a stopped timer is unchanged; otherwise the kept value becomes 0 |
| Timer.TogglePause | server/TimerServer.py:85-89 | the result is paused iff the timer was running, and running iff it was not; the elapsed value is kept except when starting from stopped |
| Timer.SetTime | server/TimerServer.py:135-137 | the status is kept; a running or paused timer then reads x; a stopped timer starts from x when next started |
| Timer.PauseThenStartResumes | server/TimerServer.py:91-106 | pausing at t1 and starting at t2 resumes from the value at t1, then follows the clock |
| Timer.StartTwiceIsStartOnce | server/TimerServer.py:91-94 | a second start changes nothing, so there is no jump in the elapsed value |
| Timer.ApplyPreservesWf | server/TimerServer.py:85-137 | every operation keeps the invariant (kept value >= 0, a running interval not started in the future) when the clock does not go back and overrides are >= 0 |
| Timer.RunPreservesWf | server/TimerServer.py:85-137 | the invariant holds after any sequence of operations under those conditions |
| Timer.ElapsedNeverNegative | server/TimerServer.py:135-145 | on a fresh timer, getTime is never negative after any admissible sequence of operations |
| Wire.ParseRender | server/TimerServer.py:109-113 | every pushed text ("end", "stop", "<status>:<elapsed>") reads back as the push it encodes |
| Wire.RenderInjective | server/TimerServer.py:109-113 | two different pushes never share a text |
| Server.New | server/TimerServer.py:56-67 | a new server has no clients, a stopped timer whose kept value is 0 (so a first start counts from 0), and the configured password (or none) |
| Server.StatusPush | server/TimerServer.py:109-113 | the text a client reads is "stop" iff the timer is stopped; otherwise it reads back as the status together with the elapsed value at that instant |
| Server.UpdateClients | server/TimerServer.py:115-117 | exactly one send per registered client, in registry order, each carrying the current status push |
| Server.StartTimer | server/TimerServer.py:91-95 | the timer makes exactly the timer-level start and ends up running; a running timer is unchanged; clients and password are untouched; every client is sent "running" with the new elapsed value, even when nothing changed |
| Server.PauseTimer | server/TimerServer.py:103-107 | the timer makes exactly the timer-level pause and every client is sent the resulting status, in registry order, whatever the timer's state; only a running timer is paused, and every client is sent "paused" with the kept value; pausing a stopped timer changes nothing but still pushes "stop" to all |
| Server.ResetTimer | server/TimerServer.py:97-101 | the timer makes exactly the timer-level reset: it ends up stopped with startTime untouched, and every client is sent "stop", also when it was already stopped |
| Server.TogglePause | server/TimerServer.py:85-89 | the timer moves as the timer-level toggle does, followed by exactly one broadcast of the resulting status |
| Server.SetTime | server/TimerServer.py:135-137 | the override keeps the status and the registry; a running or paused timer then reads x, and a stopped timer keeps x so that its next start resumes from x |
| Server.Accept | server/TimerServer.py:126-131 | a new client is appended to the registry, which stays free of repeats, and is sent the current status; no other client is sent anything |
| Server.RemoveFirst | server/TimerServer.py:153-158 | removal takes out exactly one occurrence of the client; a client that is not registered leaves the registry unchanged |
| Server.RemoveFirstDeletesOnePosition | server/TimerServer.py:155 | removal deletes exactly the first position holding the client and keeps every other client in order |
| Server.RemoveFirstDistinct | server/TimerServer.py:153-158 | in a repeat-free registry, removal leaves the client absent and shortens the registry by one when the client was present |
| Server.RemoveClient | server/TimerServer.py:153-158 | removal leaves the timer and password alone, and a client that is not registered is a no-op |
| Server.RemoveClientTwice | server/TimerServer.py:153-158 | removing the same client twice has the same effect as removing it once |
| Session.Dispatch | server/TimerServer.py:25-32 | "quit" means quit in all cases; pause iff a password is set and the text is password+"pause"; reset iff a password is set and the text is password+"reset"; anything else is ignored |
| Session.DispatchRoundTrip | server/TimerServer.py:25-32 | the text a client sends for each command is understood as that command |
| Session.NoPasswordOnlyQuit | server/TimerServer.py:28 | without a password, every text other than "quit" is ignored |
| Session.EmptyPasswordEnablesBareCommands | server/TimerServer.py:28-32 | an empty password still enables a bare "pause" and "reset", because the check is `is not None` |
| Session.Perform | server/TimerServer.py:25-32 | quit stops the loop and sends "end" to this client only; pause toggles and broadcasts; reset resets and broadcasts; ignore changes nothing |
| Session.EmptyReadIsFixedPointAsWritten | server/TimerServer.py:23-32 | as written, reading the empty text (peer closed) leaves the loop running with nothing changed, so the loop repeats forever |
| Session.ReceiveAsWritten | server/TimerServer.py:23-32 | as written, only "quit" ends the loop (and sends "end" to this client); with a password set, password+"pause" toggles and password+"reset" resets, each with one broadcast; every other text, the empty one included, changes nothing and sends nothing |
| Session.Receive | server/TimerServer.py:23-32 | the registry is untouched; the loop keeps running iff the text is neither empty nor "quit"; without a password the server is unchanged; every non-empty text is handled exactly as the pass written in the source |
| Session.Detach | server/TimerServer.py:37-40 | an attached session is removed from the registry once and marked detached; a detached one changes nothing |
| Session.DetachTwice | server/TimerServer.py:37-40 | detaching a second time changes nothing |
| Session.StopSession | server/TimerServer.py:45-52 | a stopped session is no longer running or attached, is sent "end", and has been removed from the registry |
| Session.Loop | server/TimerServer.py:21-35 | when the loop ends the session is detached and removed once from the registry; without a password the timer is never changed |
| Session.QuitEndsSession | server/TimerServer.py:25-27 | after "quit", only that client is sent "end", the timer is untouched, and later input is never acted on |
| Session.EmptyReadEndsSession | server/TimerServer.py:23-35 | after an empty read (peer closed), the session detaches and sends nothing |
| Session.StopThenLoopRemovesOnce | server/TimerServer.py:37-52 | a session stopped by the server whose loop then exits is removed from the registry once, not twice |
| Session.ConnectThenDisconnectRestoresRegistry | server/TimerServer.py:126-131 | in the corrected loop, a client that connects and then disconnects for whatever reason leaves the registry exactly as it was |
| Session.TwoClientsOneQuits | server/TimerServer.py:25-40 | with two clients, the one that quits alone is sent "end" and dropped; the other stays registered |
| Triggers.ScanFromIsOccurs | server/TimerServer.py:167 | scanning the start positions left to right finds the message iff it occurs at some position of the line |
| Triggers.Contains | server/TimerServer.py:167 | the substring test holds iff the message occurs at some position of the line |
| Triggers.Check | server/TimerServer.py:166-170 | the checker fires its own action, once, iff its message occurs in the line, and fires nothing otherwise |
| Triggers.Matching | server/TimerServer.py:230-231 | a checker is picked as often as it appears in the set if it matches the line, and never otherwise |
| Triggers.CheckLine | server/TimerServer.py:230-231 | an action fires on a line iff some checker bound to it has a message that occurs in the line, and no more actions fire than there are checkers |
| Triggers.CheckLineCons | server/TimerServer.py:230-231 | a line fires the first checker's action once if its message occurs, followed by what the remaining checkers fire, so the firing count is one per matching checker and two checkers bound to one action fire it twice |
| Triggers.CheckLineTwo | server/TimerServer.py:230-231 | two checkers tried in turn fire the first one's action, then the second one's, each only if its message occurs |
| Triggers.CheckLineOrderIndependent | server/TimerServer.py:197-200 | the order of the checker set changes neither which actions fire nor how often |
| Triggers.ScanLines | server/TimerServer.py:229-231 | an action fires over a block of lines iff it fires on one of its lines |
| Triggers.ScanLinesOrderIndependent | server/TimerServer.py:229-231 | over any block of lines, the order of the checker set changes neither which actions fire nor how often |
| Triggers.ScanLinesAppend | server/TimerServer.py:229-233 | scanning two blocks of lines fires the first block's actions, then the second's |
| Tailer.Init | server/TimerServer.py:193-194 | a new tracker has scanned no lines and has seen modification time 0 |
| Tailer.ResumeAt | server/TimerServer.py:226-229 | scanning resumes at the saved offset, or at 0 when the file has fewer lines than were scanned |
| Tailer.CheckFile | server/TimerServer.py:221-234 | after a scan the offset is the file's line count, and the modification time is unchanged |
| Tailer.AppendScansOnlyNewLines | server/TimerServer.py:226-234 | when lines are appended to an already scanned file, only the appended lines are scanned |
| Tailer.SameLengthScansNothing | server/TimerServer.py:229-234 | a file whose line count has not changed fires nothing and leaves the tracker as it was |
| Tailer.ShrunkFileRescansAll | server/TimerServer.py:226-229 | a file that shrank is scanned again from its first line |
| Tailer.TwoScansCoverEachLineOnce | server/TimerServer.py:229-234 | over two scans of a growing file, every line past the starting offset is scanned exactly once, in order |
| Tailer.Tick | server/TimerServer.py:213-234 | a tick on a missing file or an unchanged modification time changes nothing; otherwise the new time is recorded, a failed read fires nothing and keeps the offset, and a readable file fires what scanning it from the resume point to its end fires, after which the offset is its line count |
| Tailer.TruncatedFileTickRescansAll | server/TimerServer.py:215-229 | a tick that sees a new modification time on a file shorter than what was scanned fires what scanning the whole file fires, and records its line count and the new time |
| Tailer.TickOrderIndependent | server/TimerServer.py:213-234 | a tick fires the same actions, as often, and leaves the same tracker whatever order the checkers are tried in |
| Tailer.FailedReadDefersToNextModification | server/TimerServer.py:215-217 | the time is recorded before the read, so after a failed read the same modification time triggers no scan |
| Tailer.TickTwiceSecondFiresNothing | server/TimerServer.py:215-217 | polling an unchanged file a second time changes nothing |
| Tailer.SkippedTickDefersLines | server/TimerServer.py:215-234 | lines appended under an unchanged modification time are skipped, and are scanned at the next modification |
| Wiring.Perform | server/TimerServer.py:250-251 | a fired start or reset makes the timer-level start or reset and sends every client, in registry order, the status it leaves |
| Wiring.PerformAll | server/TimerServer.py:229-231 | fired actions run in order: block k of the sends pushes to every client, in registry order, the status after action k, and the timer ends where the last action left it; registry and password are untouched |
| Wiring.BroadcastsEachLength | server/TimerServer.py:115-117 | one broadcast per fired action makes the number of sends the number of actions times the number of clients |
| Wiring.TailTick | server/TimerServer.py:213-234 | a missing file, an unchanged modification time or a failed read changes nothing and sends nothing; the rule order changes neither which actions fire nor how often; every fired action is performed on the server in order and broadcasts the status it leaves, and the timer ends where the last fired action left it |
| Wiring.RulesOnLine | server/TimerServer.py:250-251 | in either order of the two rules, a line fires start once iff it contains "Set the time to 0", reset once iff it contains "Stopping the server", and nothing else |
| Wiring.BothPhrasesOrderDecides | server/TimerServer.py:197-200 | on a line with both phrases the rule order decides the outcome: start then reset leaves the timer stopped, reset then start leaves it running |
| Wiring.FirstTickFiringStart | server/TimerServer.py:213-234 | a tick with a new modification time, by a tracker that has scanned no lines, over a file whose lines fire start once starts a timer that was not running and sends every client "running" with the value it resumes from |
| Wiring.GrowingLogStartsTimer | server/TimerServer.py:250-251 | a log that grows from empty (seen at any earlier modification time, or never) to three lines, only the second of which contains "Set the time to 0" and none of which contains "Stopping the server", fires start once; the timer then runs and every client is sent "running" |

## Findings

| source | as written | input that shows it | evidently intended | confidence | as-written member | corrected member |
|---|---|---|---|---|---|---|
| server/TimerServer.py:23-32 | once the peer closes, `recv` returns the empty text; the loop handles it as an ignored command and reads again | the client closes its connection normally: every later read is empty, so the loop spins forever and never detaches the session | an empty read ends the loop, and the session detaches as on a read error | not executed; high (a closed stream keeps returning an empty read) | Session.EmptyReadIsFixedPointAsWritten | Session.EmptyReadEndsSession |

`Session.ReceiveAsWritten` is the pass exactly as written. `Session.Receive`
is the corrected pass, and `Session.Loop` uses it.

## Left out

- Sockets and wire I/O are left out: bind, listen, accept, recv, send,
  close, the 1024-byte reads and UTF-8 coding. Sends are returned as lists.
  Received texts are an input sequence, and when that sequence runs out the
  read is taken to have failed.
- Threads and their races are left out: the accept, session and tailer
  threads run with no locks. One such race is a session thread that starts
  before its client is appended to the registry.
- `TimerServer.start` and the accept loop's `if self.running` shutdown check
  are left out. Both are socket lifecycle. `Server.Accept` models only the
  branch taken while running.
- `kill()` is left out. It stops clients while iterating the list that
  `stop()` removes them from, so in Python it skips elements. Modelling it
  would need that mutating iteration. `sendToAll` is never called and is
  also left out.
- `Timer.GetTime`: clock readings and elapsed values are integer ticks, not
  `time.time()` floats. A decimal integer stands in for `str(float)`, so
  fractional seconds are not modelled. `Wire.NatText` and `Wire.IntText`
  are that stand-in; only their round trip, which `Wire.ParseRender` needs,
  is proved about them.
- `Server.UpdateClients` reads the clock once per broadcast. In the source,
  `updateClient` calls `getTime()`, and so `time.time()`, again for every
  client, and the transition itself read the clock before that. Clients of
  one broadcast of a running timer can therefore see slightly different
  values; the model sends them all the value at one `now`.
- `Server.UpdateClients` assumes every send succeeds. In the source a send
  that raises aborts the loop over the registry, so the clients after it
  get nothing, and the exception reaches the caller. From a session loop
  the caller's own session then detaches. From the tailer the scan of that
  tick stops before the offset is saved, while the new modification time
  is already recorded. The next modification scans again from the old
  offset, so the lines handled before the failure fire their start or
  reset, and broadcast, a second time. The timer change before the
  broadcast has already happened in every case.
- `Session.StopSession` assumes the "end" send succeeds. In the source
  `stop()` sends "end" outside any `try`, so a send that raises leaves
  `stop()` before the socket is closed and before the session detaches,
  and the session stays registered.
- `Wiring.TailTick` performs every action fired by one tick at the same
  `now`. In the source, each action reads the clock again while the scan
  runs.
- `RELineChecker` is left out because it depends on Python's regular
  expression library.
- The exceptions the tailer swallows are only partly modelled.
  `Tailer.FileView.Unreadable` covers a read that fails after the
  modification time was recorded. An exception raised by an action in the
  middle of a scan is not modelled.
- `main()` is left out: the JSON configuration, signal handling and console
  logging. Of `main()`, the model keeps only the two trigger rules, as
  `Wiring.Rules`.
- The checker set is modelled as a sequence, and the order Python's set
  yields is left open: `Wiring.TailTick` takes the rules in any order.
  `Triggers.CheckLineOrderIndependent` and `Tailer.TickOrderIndependent`
  show that the order changes neither which actions fire nor how often. It
  does change the order they fire in, and `Wiring.BothPhrasesOrderDecides`
  shows that on a line with both phrases this decides whether the timer
  ends stopped or running. `Wiring.Rules` lists the two rules in the order
  they are added, which is not a promise about the set. Python sets of
  these objects compare by identity, so no deduplication happens and none
  is modelled.
- Lines keep whatever trailing newline `readlines` leaves. The substring
  test is unaffected by it.

=== FILE: server.dfy ===
/** The timer server: the timer, the registry of connected clients (in
    connection order) and the optional shared password. Every timer
    transition is followed by one status push to every registered client;
    pushes are returned as a list of sends instead of being written to
    sockets. */
module Server {
  import opened Wrappers
  import opened Timer
  import opened Wire

  /** Identity of one connected client session. */
  type ClientId = nat

  datatype Send = Send(to: ClientId, msg: Push)

  datatype ServerState = ServerState(timer: TimerState, clients: seq<ClientId>, password: Option<string>)

  /** A new server state together with the pushes the operation sent. */
  datatype Outcome = Outcome(server: ServerState, sends: seq<Send>)

  function New(now: int, password: Option<string>): (s: ServerState)
    ensures s.clients == [] && s.timer.status == Stopped && GetTime(s.timer, now) == 0
    ensures s.timer.pauseTime == 0
    ensures s.password == password
  {
    ServerState(Timer.Init(now), [], password)
  }

  predicate Distinct(cs: seq<ClientId>) {
    forall i, j :: 0 <= i < j < |cs| ==> cs[i] != cs[j]
  }

  /** The status push for the current timer. On the wire a client reads
      "stop" exactly when the timer is stopped; otherwise the line it reads
      parses back to the status and the elapsed value at `now`. */
  function StatusPush(t: TimerState, now: int): (p: Push)
    ensures Render(p) == "stop" <==> t.status == Stopped
    ensures t.status != Stopped ==> Parse(Render(p)) == Some(Report(t.status, GetTime(t, now)))
    ensures p.Stop? <==> t.status == Stopped
    ensures !p.End?
  {
    var p := if t.status == Stopped then Stop else Report(t.status, GetTime(t, now));
    ParseRender(p);
    ParseRender(Stop);
    p
  }

  /** Exactly one send of `msg` to each client of `clients`, in order. */
  predicate Broadcasts(sends: seq<Send>, clients: seq<ClientId>, msg: Push) {
    |sends| == |clients| && forall i :: 0 <= i < |sends| ==> sends[i] == Send(clients[i], msg)
  }

  function UpdateClients(t: TimerState, now: int, clients: seq<ClientId>): (sends: seq<Send>)
    ensures Broadcasts(sends, clients, StatusPush(t, now))
    decreases |clients|
  {
    if clients == [] then []
    else [Send(clients[0], StatusPush(t, now))] + UpdateClients(t, now, clients[1..])
  }

  /** Applies a timer transition and pushes the resulting status to every
      registered client, whether or not the transition changed anything. */
  function Transition(s: ServerState, t: TimerState, now: int): (o: Outcome)
    ensures o.server == s.(timer := t)
    ensures Broadcasts(o.sends, s.clients, StatusPush(t, now))
  {
    Outcome(s.(timer := t), UpdateClients(t, now, s.clients))
  }

  function StartTimer(s: ServerState, now: int): (o: Outcome)
    ensures o.server.clients == s.clients && o.server.password == s.password
    ensures o.server.timer == Timer.StartTimer(s.timer, now)
    ensures o.server.timer.status == Running
    ensures s.timer.status == Running ==> o.server == s
    ensures Broadcasts(o.sends, s.clients, Report(Running, GetTime(o.server.timer, now)))
  {
    Transition(s, Timer.StartTimer(s.timer, now), now)
  }

  function PauseTimer(s: ServerState, now: int): (o: Outcome)
    ensures o.server.clients == s.clients && o.server.password == s.password
    ensures o.server.timer == Timer.PauseTimer(s.timer, now)
    ensures Broadcasts(o.sends, s.clients, StatusPush(o.server.timer, now))
    ensures s.timer.status != Running ==> o.server == s
    ensures s.timer.status == Running ==>
      o.server.timer.status == Paused
      && Broadcasts(o.sends, s.clients, Report(Paused, GetTime(s.timer, now)))
    // pausing a stopped timer changes nothing but still pushes "stop"
    ensures s.timer.status == Stopped ==> Broadcasts(o.sends, s.clients, Stop)
  {
    Transition(s, Timer.PauseTimer(s.timer, now), now)
  }

  function ResetTimer(s: ServerState, now: int): (o: Outcome)
    ensures o.server.clients == s.clients && o.server.password == s.password
    ensures o.server.timer == Timer.ResetTimer(s.timer)
    ensures o.server.timer.status == Stopped
    ensures o.server.timer.startTime == s.timer.startTime
    ensures s.timer.status == Stopped ==> o.server == s
    ensures Broadcasts(o.sends, s.clients, Stop)
  {
    Transition(s, Timer.ResetTimer(s.timer), now)
  }

  /** Pauses a running timer and starts it otherwise; either way exactly one
      broadcast goes out. */
  function TogglePause(s: ServerState, now: int): (o: Outcome)
    ensures o.server.clients == s.clients && o.server.password == s.password
    ensures o.server.timer == Timer.TogglePause(s.timer, now)
    ensures Broadcasts(o.sends, s.clients, StatusPush(o.server.timer, now))
  {
    if s.timer.status == Running then PauseTimer(s, now) else StartTimer(s, now)
  }

  /** Overrides the elapsed value; unlike the transitions it pushes nothing. */
  function SetTime(s: ServerState, now: int, x: int): (r: ServerState)
    ensures r.clients == s.clients && r.password == s.password
    ensures r.timer.status == s.timer.status
    ensures r.timer.status != Stopped ==> GetTime(r.timer, now) == x
    // a stopped timer keeps the override for the next start
    ensures r.timer.status == Stopped ==> GetTime(Timer.StartTimer(r.timer, now), now) == x
  {
    s.(timer := Timer.SetTime(s.timer, now, x))
  }

  /** Registers a newly accepted client and brings it up to date at once;
      no other client is sent anything. */
  function Accept(s: ServerState, id: ClientId, now: int): (o: Outcome)
    requires id !in s.clients
    ensures o.server == s.(clients := s.clients + [id])
    ensures Distinct(s.clients) ==> Distinct(o.server.clients)
    ensures o.sends == [Send(id, StatusPush(s.timer, now))]
  {
    Outcome(s.(clients := s.clients + [id]), [Send(id, StatusPush(s.timer, now))])
  }

  /** Removes the first occurrence of `c`; a client that is not registered
      leaves the registry as it is. */
  function RemoveFirst(cs: seq<ClientId>, c: ClientId): (r: seq<ClientId>)
    ensures c !in cs ==> r == cs
    ensures multiset(r) == multiset(cs) - multiset{c}
    decreases |cs|
  {
    if cs == [] then []
    else if cs[0] == c then
      assert cs == [cs[0]] + cs[1..];
      cs[1..]
    else
      assert cs == [cs[0]] + cs[1..];
      [cs[0]] + RemoveFirst(cs[1..], c)
  }

  /** Position of the first occurrence of `c`. */
  function FirstIndex(cs: seq<ClientId>, c: ClientId): (i: nat)
    requires c in cs
    ensures i < |cs| && cs[i] == c && c !in cs[..i]
    decreases |cs|
  {
    if cs[0] == c then 0
    else
      var k := FirstIndex(cs[1..], c);
      assert cs[..k + 1] == [cs[0]] + cs[1..][..k];
      k + 1
  }

  /** Deleting position `i` of `[x] + tail` keeps `x` in front of `tail`
      with position `i - 1` deleted. */
  lemma ConsDeleteAt(x: ClientId, tail: seq<ClientId>, i: nat)
    requires 0 < i <= |tail|
    ensures [x] + (tail[..i - 1] + tail[i..]) == ([x] + tail)[..i] + ([x] + tail)[i + 1..]
  {
    var cs := [x] + tail;
    assert cs[..i] == [x] + tail[..i - 1];
    assert cs[i + 1..] == tail[i..];
  }

  /** Removing `c` deletes position `i` when `i` is the first position
      holding `c`. */
  lemma {:induction false} RemoveFirstAt(cs: seq<ClientId>, c: ClientId, i: nat)
    requires i < |cs| && cs[i] == c && c !in cs[..i]
    ensures RemoveFirst(cs, c) == cs[..i] + cs[i + 1..]
    decreases i
  {
    if i == 0 {
      assert cs[..0] + cs[1..] == cs[1..];
    } else {
      var tail := cs[1..];
      assert cs[0] in cs[..i];
      assert tail[..i - 1] == cs[1..i];
      RemoveFirstAt(tail, c, i - 1);
      ConsDeleteAt(cs[0], tail, i);
      assert cs == [cs[0]] + tail;
    }
  }

  /** Removal keeps the other clients in their connection order: it deletes
      exactly the first position holding `c`. */
  lemma {:induction false} RemoveFirstDeletesOnePosition(cs: seq<ClientId>, c: ClientId)
    requires c in cs
    ensures RemoveFirst(cs, c) == cs[..FirstIndex(cs, c)] + cs[FirstIndex(cs, c) + 1..]
  {
    var i := FirstIndex(cs, c);
    RemoveFirstAt(cs, c, i);
  }

  /** Deleting one position of a sequence without repetitions leaves a
      sequence without repetitions that no longer holds the deleted entry. */
  lemma DeleteKeepsDistinct(cs: seq<ClientId>, i: nat)
    requires Distinct(cs) && i < |cs|
    ensures Distinct(cs[..i] + cs[i + 1..]) && cs[i] !in cs[..i] + cs[i + 1..]
  {
    var r := cs[..i] + cs[i + 1..];
    assert forall k :: 0 <= k < i ==> r[k] == cs[k];
    assert forall k :: i <= k < |r| ==> r[k] == cs[k + 1];
  }

  /** Removing a client from a registry without repetitions leaves one
      without repetitions, one entry shorter, and without that client. */
  lemma RemoveFirstDistinct(cs: seq<ClientId>, c: ClientId)
    requires Distinct(cs)
    ensures Distinct(RemoveFirst(cs, c)) && c !in RemoveFirst(cs, c)
    ensures c in cs ==> |RemoveFirst(cs, c)| == |cs| - 1
  {
    if c in cs {
      RemoveFirstDeletesOnePosition(cs, c);
      DeleteKeepsDistinct(cs, FirstIndex(cs, c));
    }
  }

  function RemoveClient(s: ServerState, c: ClientId): (r: ServerState)
    ensures r.timer == s.timer && r.password == s.password
    ensures r.clients == RemoveFirst(s.clients, c)
    ensures c !in s.clients ==> r == s
  {
    s.(clients := RemoveFirst(s.clients, c))
  }

  /** With distinct registrations, a second removal of the same client is a
      no-op: a client is removed at most once. */
  lemma RemoveClientTwice(s: ServerState, c: ClientId)
    requires Distinct(s.clients)
    ensures RemoveClient(RemoveClient(s, c), c) == RemoveClient(s, c)
    ensures c !in RemoveClient(s, c).clients
  {
    RemoveFirstDistinct(s.clients, c);
  }
}

=== FILE: session.dfy ===
/** One client session: the command a received text stands for, the effect
    of one pass of the receive loop, the whole loop over the texts a client
    sends, and the two ways a session leaves the registry (its own loop
    ending, and a server-initiated stop). */
module Session {
  import opened Wrappers
  import Timer
  import opened Wire
  import opened Server

  /** `Pause` is the command written "pause", which toggles the timer. */
  datatype Command = Quit | Pause | Reset | Ignore

  /** The command a received text stands for. "quit" is always understood;
      the two privileged commands exist only when a password is configured,
      and an empty password still enables them (the check is "configured",
      not "non-empty"). */
  function Dispatch(msg: string, password: Option<string>): (c: Command)
    ensures c == Quit <==> msg == "quit"
    ensures c == Pause <==> password.Some? && msg == password.value + "pause"
    ensures c == Reset <==> password.Some? && msg == password.value + "reset"
  {
    if msg == "quit" then Quit
    else if password.Some? then
      if msg == password.value + "pause" then
        assert (password.value + "reset")[|password.value|] != msg[|password.value|];
        Pause
      else if msg == password.value + "reset" then Reset
      else Ignore
    else Ignore
  }

  /** The text a client sends for a command when the password is `pw`. */
  function CommandText(c: Command, pw: string): string
    requires c != Ignore
  {
    match c
    case Quit => "quit"
    case Pause => pw + "pause"
    case Reset => pw + "reset"
  }

  /** Every command a client can send is understood as itself. */
  lemma DispatchRoundTrip(c: Command, pw: string)
    requires c != Ignore
    ensures Dispatch(CommandText(c, pw), Some(pw)) == c
  {
  }

  /** Without a password only "quit" has any effect; in particular a bare
      "pause" or "reset" is ignored. */
  lemma NoPasswordOnlyQuit(msg: string)
    ensures Dispatch(msg, None) == (if msg == "quit" then Quit else Ignore)
  {
  }

  /** An empty password is still a configured password. */
  lemma EmptyPasswordEnablesBareCommands()
    ensures Dispatch("pause", Some("")) == Pause
    ensures Dispatch("reset", Some("")) == Reset
    ensures Dispatch("pause", None) == Ignore
  {
  }

  /** The session's view of itself: whether its receive loop still runs and
      whether it is still attached to the server. */
  datatype Client = Client(id: ClientId, running: bool, attached: bool)

  datatype Effect = Effect(server: ServerState, client: Client, sends: seq<Send>)

  /** One text sent by the client, and the clock reading when it arrives. */
  datatype Received = Received(text: string, at: int)

  function Perform(s: ServerState, cl: Client, cmd: Command, now: int): (e: Effect)
    ensures e.server.clients == s.clients && e.server.password == s.password
    ensures e.client == (if cmd == Quit then cl.(running := false) else cl)
    ensures cmd == Quit ==> e.server == s && e.sends == [Send(cl.id, End)]
    ensures cmd == Ignore ==> e.server == s && e.sends == []
    ensures cmd == Pause ==>
      e.server.timer == Timer.TogglePause(s.timer, now)
      && Broadcasts(e.sends, s.clients, StatusPush(e.server.timer, now))
    ensures cmd == Reset ==>
      e.server.timer == Timer.ResetTimer(s.timer) && Broadcasts(e.sends, s.clients, Stop)
  {
    match cmd
    case Quit => Effect(s, cl.(running := false), [Send(cl.id, End)])
    case Pause =>
      var o := Server.TogglePause(s, now);
      Effect(o.server, cl, o.sends)
    case Reset =>
      var o := Server.ResetTimer(s, now);
      Effect(o.server, cl, o.sends)
    case Ignore => Effect(s, cl, [])
  }

  /** One pass of the receive loop exactly as the source writes it: only
      "quit" ends the loop, the two privileged texts change the timer and
      broadcast, and every other text, the empty one included, is ignored. */
  function ReceiveAsWritten(s: ServerState, cl: Client, msg: string, now: int): (e: Effect)
    ensures e.server.clients == s.clients && e.server.password == s.password
    ensures e.client.running <==> cl.running && msg != "quit"
    ensures msg == "quit" ==> e.server == s && e.sends == [Send(cl.id, End)]
    ensures s.password.Some? && msg == s.password.value + "pause" ==>
      e.server.timer == Timer.TogglePause(s.timer, now)
      && Broadcasts(e.sends, s.clients, StatusPush(e.server.timer, now))
    ensures s.password.Some? && msg == s.password.value + "reset" ==>
      e.server.timer == Timer.ResetTimer(s.timer) && Broadcasts(e.sends, s.clients, Stop)
    ensures msg != "quit"
      && (s.password.None? || (msg != s.password.value + "pause" && msg != s.password.value + "reset"))
      ==> e == Effect(s, cl, [])
  {
    Perform(s, cl, Dispatch(msg, s.password), now)
  }

  /** An orderly close by the peer makes every later read return the empty
      text. As written, that text is an ignored command: the pass changes
      nothing and sends nothing, so the next pass reads the empty text again
      from the same state and the loop never ends nor deregisters. */
  lemma EmptyReadIsFixedPointAsWritten(s: ServerState, cl: Client, now: int)
    requires cl.running
    ensures ReceiveAsWritten(s, cl, "", now) == Effect(s, cl, [])
    ensures ReceiveAsWritten(s, cl, "", now).client.running
  {
    assert "" != "quit";
  }

  /** One pass of the receive loop, with the empty read taken as the end of
      the connection. */
  function Receive(s: ServerState, cl: Client, msg: string, now: int): (e: Effect)
    ensures e.server.clients == s.clients && e.server.password == s.password
    ensures e.client.id == cl.id && e.client.attached == cl.attached
    ensures e.client.running <==> cl.running && msg != "" && msg != "quit"
    ensures msg == "" ==> e.server == s && e.sends == []
    ensures s.password.None? ==> e.server == s
    ensures msg != "" ==> e == ReceiveAsWritten(s, cl, msg, now)
  {
    if msg == "" then Effect(s, cl.(running := false), [])
    else ReceiveAsWritten(s, cl, msg, now)
  }

  /** Deregisters the session from the server, once. */
  function Detach(s: ServerState, cl: Client): (e: Effect)
    ensures !e.client.attached && e.client.id == cl.id && e.client.running == cl.running
    ensures e.sends == []
    ensures e.server.timer == s.timer && e.server.password == s.password
    ensures cl.attached ==> e.server.clients == RemoveFirst(s.clients, cl.id)
    ensures !cl.attached ==> e.server == s
  {
    if cl.attached then Effect(RemoveClient(s, cl.id), cl.(attached := false), [])
    else Effect(s, cl, [])
  }

  /** Detaching a second time changes nothing. */
  lemma DetachTwice(s: ServerState, cl: Client)
    ensures var e := Detach(s, cl); Detach(e.server, e.client) == e
  {
  }

  /** Server-initiated stop: the loop is told to end, the client is sent
      "end", and the session detaches. */
  function StopSession(s: ServerState, cl: Client): (e: Effect)
    ensures !e.client.running && !e.client.attached && e.client.id == cl.id
    ensures e.sends == [Send(cl.id, End)]
    ensures e.server.timer == s.timer && e.server.password == s.password
    ensures cl.attached ==> e.server.clients == RemoveFirst(s.clients, cl.id)
    ensures !cl.attached ==> e.server == s
  {
    var d := Detach(s, cl.(running := false));
    Effect(d.server, d.client, [Send(cl.id, End)])
  }

  /** The receive loop over the texts the client sends. The loop ends when a
      pass stops it or when reading fails (the texts run out); either way the
      session then detaches. */
  function Loop(s: ServerState, cl: Client, inbox: seq<Received>): (e: Effect)
    ensures !e.client.attached && e.client.id == cl.id
    ensures e.server.password == s.password
    ensures cl.attached ==> e.server.clients == RemoveFirst(s.clients, cl.id)
    ensures !cl.attached ==> e.server.clients == s.clients
    // without a password no client can change the timer
    ensures s.password.None? ==> e.server.timer == s.timer
    decreases |inbox|
  {
    if !cl.running || inbox == [] then Detach(s, cl)
    else
      var e := Receive(s, cl, inbox[0].text, inbox[0].at);
      var rest := Loop(e.server, e.client, inbox[1..]);
      Effect(rest.server, rest.client, e.sends + rest.sends)
  }

  /** "quit" ends the session at once: the client alone is sent "end", the
      timer is untouched, and nothing it sent afterwards is acted upon. */
  lemma QuitEndsSession(s: ServerState, cl: Client, inbox: seq<Received>)
    requires cl.running && inbox != [] && inbox[0].text == "quit"
    ensures Loop(s, cl, inbox).sends == [Send(cl.id, End)]
    ensures Loop(s, cl, inbox).server == Detach(s, cl).server
  {
  }

  /** An empty read (orderly close) ends the session silently. */
  lemma EmptyReadEndsSession(s: ServerState, cl: Client, inbox: seq<Received>)
    requires cl.running && inbox != [] && inbox[0].text == ""
    ensures Loop(s, cl, inbox).sends == []
    ensures Loop(s, cl, inbox).server == Detach(s, cl).server
  {
  }

  /** A session stopped by the server whose loop then ends as well is removed
      from the registry once, not twice. */
  lemma StopThenLoopRemovesOnce(s: ServerState, cl: Client, inbox: seq<Received>)
    requires cl.attached && Distinct(s.clients) && cl.id in s.clients
    ensures var st := StopSession(s, cl);
      Loop(st.server, st.client, inbox).server.clients == RemoveFirst(s.clients, cl.id)
      && |Loop(st.server, st.client, inbox).server.clients| == |s.clients| - 1
  {
    RemoveFirstDistinct(s.clients, cl.id);
  }

  /** In the corrected loop, a client that connects and whose session then
      ends, for whatever reason, leaves the registry exactly as it found it. */
  lemma ConnectThenDisconnectRestoresRegistry(s: ServerState, id: ClientId, now: int, inbox: seq<Received>)
    requires id !in s.clients
    ensures var a := Accept(s, id, now);
      Loop(a.server, Client(id, true, true), inbox).server.clients == s.clients
  {
    var cs := s.clients + [id];
    RemoveFirstDeletesOnePosition(cs, id);
    assert FirstIndex(cs, id) == |s.clients| by {
      assert cs[|s.clients|] == id;
      assert cs[..|s.clients|] == s.clients;
    }
    assert cs[..|s.clients|] == s.clients;
  }

  /** Two clients; the first sends "quit": only it is sent "end" and dropped,
      the other stays registered. */
  lemma TwoClientsOneQuits(s: ServerState, a: ClientId, b: ClientId, now: int)
    requires s.clients == [a, b] && a != b
    ensures Loop(s, Client(a, true, true), [Received("quit", now)]).sends == [Send(a, End)]
    ensures Loop(s, Client(a, true, true), [Received("quit", now)]).server.clients == [b]
  {
    assert [a, b][1..] == [b];
  }
}

=== FILE: tailer.dfy ===
/** The log tailer: remembers how many lines of the log it has already
    scanned and the modification time it last saw. The file is given as its
    current lines; a poll tick is given whether the file exists, its
    modification time and its lines. */
module Tailer {
  import opened Triggers

  datatype Tracker = Tracker(lastLine: nat, lastMTime: int)

  /** A tracker that has seen nothing yet. */
  function Init(): (tr: Tracker)
    ensures tr.lastLine == 0 && tr.lastMTime == 0
  {
    Tracker(0, 0)
  }

  /** The new tracker and the actions fired, in scan order. */
  datatype Scan<A> = Scan(tracker: Tracker, fired: seq<A>)

  /** Where scanning resumes: after the lines already scanned, or from the
      start when the file has fewer lines than were scanned (it was truncated
      or replaced). */
  function ResumeAt(tr: Tracker, content: seq<string>): (k: nat)
    ensures k <= |content|
    ensures k == tr.lastLine || (k == 0 && |content| < tr.lastLine)
  {
    if |content| < tr.lastLine then 0 else tr.lastLine
  }

  /** Scans the lines not scanned before with every checker and records the
      new line count. */
  function CheckFile<A(!new)>(tr: Tracker, cs: seq<LineChecker<A>>, content: seq<string>): (r: Scan<A>)
    ensures r.tracker == tr.(lastLine := |content|)
  {
    Scan(tr.(lastLine := |content|), ScanLines(cs, content[ResumeAt(tr, content)..]))
  }

  /** Lines appended to an already scanned file are the only ones scanned. */
  lemma AppendScansOnlyNewLines<A(!new)>(tr: Tracker, cs: seq<LineChecker<A>>, before: seq<string>, added: seq<string>)
    requires tr.lastLine == |before|
    ensures CheckFile(tr, cs, before + added).fired == ScanLines(cs, added)
    ensures CheckFile(tr, cs, before + added).tracker.lastLine == |before| + |added|
  {
    assert (before + added)[|before|..] == added;
  }

  /** A file whose line count has not changed fires nothing. */
  lemma SameLengthScansNothing<A(!new)>(tr: Tracker, cs: seq<LineChecker<A>>, content: seq<string>)
    requires |content| == tr.lastLine
    ensures CheckFile(tr, cs, content).fired == []
    ensures CheckFile(tr, cs, content).tracker == tr
  {
    assert content[|content|..] == [];
  }

  /** A file that shrank is scanned again from its first line. */
  lemma ShrunkFileRescansAll<A(!new)>(tr: Tracker, cs: seq<LineChecker<A>>, content: seq<string>)
    requires |content| < tr.lastLine
    ensures CheckFile(tr, cs, content).fired == ScanLines(cs, content)
    ensures CheckFile(tr, cs, content).tracker.lastLine == |content|
  {
    assert content[0..] == content;
  }

  /** A file that did not shrink is scanned from the saved offset. */
  lemma GrownFileScansFromOffset<A(!new)>(tr: Tracker, cs: seq<LineChecker<A>>, content: seq<string>)
    requires tr.lastLine <= |content|
    ensures CheckFile(tr, cs, content).fired == ScanLines(cs, content[tr.lastLine..])
    ensures CheckFile(tr, cs, content).tracker.lastLine == |content|
  {
  }

  /** A suffix of `xs + ys` that starts inside `xs` is the suffix of `xs`
      followed by `ys`. */
  lemma SuffixOfAppend<T>(xs: seq<T>, ys: seq<T>, k: nat)
    requires k <= |xs|
    ensures (xs + ys)[k..] == xs[k..] + ys
  {
  }

  /** Over two successive scans of a growing file, every line past the
      original offset is scanned exactly once, in file order. */
  lemma {:induction false} TwoScansCoverEachLineOnce<A(!new)>(tr: Tracker, cs: seq<LineChecker<A>>, first: seq<string>, more: seq<string>)
    requires tr.lastLine <= |first|
    ensures var r1 := CheckFile(tr, cs, first);
      var r2 := CheckFile(r1.tracker, cs, first + more);
      r1.fired + r2.fired == ScanLines(cs, (first + more)[tr.lastLine..])
  {
    var seen := first[tr.lastLine..];
    var r1 := CheckFile(tr, cs, first);
    GrownFileScansFromOffset(tr, cs, first);
    AppendScansOnlyNewLines(r1.tracker, cs, first, more);
    ScanLinesAppend(cs, seen, more);
    calc {
      r1.fired + CheckFile(r1.tracker, cs, first + more).fired;
      ScanLines(cs, seen) + ScanLines(cs, more);
      ScanLines(cs, seen + more);
      { SuffixOfAppend(first, more, tr.lastLine); }
      ScanLines(cs, (first + more)[tr.lastLine..]);
    }
  }

  /** What one poll of the log file observes: no file; a file whose
      modification time could be read but whose lines could not; or the
      file's modification time and lines. */
  datatype FileView = Missing | Unreadable(mtime: int) | Present(mtime: int, content: seq<string>)

  /** One poll tick: a missing file or an unchanged modification time skips
      the tick; otherwise the new time is recorded first and the file is then
      scanned. A read that fails after the time was recorded fires nothing
      and leaves the line offset as it was. */
  function Tick<A(!new)>(tr: Tracker, cs: seq<LineChecker<A>>, view: FileView): (r: Scan<A>)
    ensures view.Missing? ==> r == Scan(tr, [])
    ensures !view.Missing? && view.mtime == tr.lastMTime ==> r == Scan(tr, [])
    ensures !view.Missing? && view.mtime != tr.lastMTime ==> r.tracker.lastMTime == view.mtime
    ensures view.Unreadable? ==> r.fired == [] && r.tracker.lastLine == tr.lastLine
    ensures view.Present? && view.mtime != tr.lastMTime ==> r.tracker.lastLine == |view.content|
    // a changed, readable file is scanned from the resume point to its end
    ensures view.Present? && view.mtime != tr.lastMTime ==>
      r.fired == ScanLines(cs, view.content[ResumeAt(tr, view.content)..])
  {
    match view
    case Missing => Scan(tr, [])
    case Unreadable(mtime) =>
      if mtime == tr.lastMTime then Scan(tr, []) else Scan(tr.(lastMTime := mtime), [])
    case Present(mtime, content) =>
      if mtime == tr.lastMTime then Scan(tr, [])
      else CheckFile(tr.(lastMTime := mtime), cs, content)
  }

  /** A tick that sees a new modification time on a file shorter than what
      was scanned (truncated, or replaced by a shorter one) scans every line
      of it again. */
  lemma {:induction false} TruncatedFileTickRescansAll<A(!new)>(tr: Tracker, cs: seq<LineChecker<A>>, mtime: int, content: seq<string>)
    requires mtime != tr.lastMTime && |content| < tr.lastLine
    ensures Tick(tr, cs, Present(mtime, content)).fired == ScanLines(cs, content)
    ensures Tick(tr, cs, Present(mtime, content)).tracker == Tracker(|content|, mtime)
  {
    ShrunkFileRescansAll(tr.(lastMTime := mtime), cs, content);
  }

  /** The order the checkers are tried in changes neither which actions a
      tick fires nor how often. */
  lemma {:induction false} TickOrderIndependent<A(!new)>(tr: Tracker, cs: seq<LineChecker<A>>, ds: seq<LineChecker<A>>, view: FileView)
    requires multiset(cs) == multiset(ds)
    ensures multiset(Tick(tr, cs, view).fired) == multiset(Tick(tr, ds, view).fired)
    ensures Tick(tr, cs, view).tracker == Tick(tr, ds, view).tracker
  {
    if view.Present? && view.mtime != tr.lastMTime {
      var content := view.content;
      ScanLinesOrderIndependent(cs, ds, content[ResumeAt(tr.(lastMTime := view.mtime), content)..]);
    }
  }

  /** Because the time is recorded before the read, lines that a failed read
      missed are not scanned by a later poll that sees the same modification
      time; they wait for the next modification. */
  lemma FailedReadDefersToNextModification<A(!new)>(tr: Tracker, cs: seq<LineChecker<A>>, mtime: int, content: seq<string>)
    requires mtime != tr.lastMTime
    ensures var r := Tick(tr, cs, Unreadable(mtime));
      Tick(r.tracker, cs, Present(mtime, content)) == Scan(r.tracker, [])
  {
  }

  /** Polling the same file twice fires nothing the second time. */
  lemma TickTwiceSecondFiresNothing<A(!new)>(tr: Tracker, cs: seq<LineChecker<A>>, view: FileView)
    ensures var r := Tick(tr, cs, view);
      Tick(r.tracker, cs, view) == Scan(r.tracker, [])
  {
  }

  /** Lines appended while the modification time appeared unchanged are not
      lost: the next tick with a new time scans them together with any later
      ones. */
  lemma {:induction false} SkippedTickDefersLines<A(!new)>(tr: Tracker, cs: seq<LineChecker<A>>, before: seq<string>, added: seq<string>, mtime: int)
    requires tr.lastLine == |before| && mtime != tr.lastMTime
    ensures Tick(tr, cs, Present(tr.lastMTime, before + added)) == Scan(tr, [])
    ensures Tick(tr, cs, Present(mtime, before + added)).fired == ScanLines(cs, added)
  {
    AppendScansOnlyNewLines(tr.(lastMTime := mtime), cs, before, added);
  }
}

=== FILE: timer.dfy ===
/** The shared stopwatch held by the timer server: a status and two recorded
    instants from which the elapsed time is derived. Every operation takes the
    current clock reading `now` (integer ticks) instead of reading a clock. */
module Timer {

  datatype Status = Stopped | Running | Paused

  /** `startTime` is the instant the running interval would have started from
      zero; `pauseTime` is the elapsed value kept while paused (and the value a
      start from `Stopped` resumes from). */
  datatype TimerState = TimerState(status: Status, startTime: int, pauseTime: int)

  /** A freshly constructed server: stopped, nothing accumulated. */
  function Init(now: int): (t: TimerState)
    ensures t.status == Stopped && t.pauseTime == 0
    ensures Wf(t, now)
  {
    TimerState(Stopped, now, 0)
  }

  /** The elapsed value reported to clients. A stopped timer reports zero
      even when a value is kept for the next start, and a well-formed timer
      never reports a negative value. */
  function GetTime(t: TimerState, now: int): (e: int)
    ensures t.status == Stopped ==> e == 0
    ensures Wf(t, now) ==> e >= 0
  {
    match t.status
    case Stopped => 0
    case Running => now - t.startTime
    case Paused => t.pauseTime
  }

  /** While running the elapsed value follows the clock tick for tick; in the
      other two states it does not depend on the clock at all. */
  lemma ElapsedFollowsClock(t: TimerState, now: int, later: int)
    ensures t.status == Running ==> GetTime(t, later) == GetTime(t, now) + (later - now)
    ensures t.status != Running ==> GetTime(t, later) == GetTime(t, now)
    ensures t.status == Stopped ==> GetTime(t, now) == 0
  {
  }

  function StartTimer(t: TimerState, now: int): (r: TimerState)
    ensures r.status == Running
    ensures t.status == Running ==> r == t
    ensures t.status != Running ==> r.pauseTime == t.pauseTime
    // resuming from a pause continues the count without a jump
    ensures t.status == Paused ==> GetTime(r, now) == GetTime(t, now)
    // starting from stopped counts on from the kept value (0 after a reset)
    ensures t.status == Stopped ==> GetTime(r, now) == t.pauseTime
  {
    if t.status != Running then
      t.(startTime := now - t.pauseTime, status := Running)
    else
      t
  }

  function PauseTimer(t: TimerState, now: int): (r: TimerState)
    ensures t.status == Running ==> r.status == Paused && r.startTime == t.startTime
    // the paused value is the elapsed value at the instant of the pause
    ensures GetTime(r, now) == GetTime(t, now)
    ensures t.status != Running ==> r == t
  {
    if t.status == Running then
      t.(pauseTime := now - t.startTime, status := Paused)
    else
      t
  }

  function ResetTimer(t: TimerState): (r: TimerState)
    ensures r.status == Stopped
    ensures forall now :: GetTime(r, now) == 0
    ensures r.startTime == t.startTime
    ensures t.status != Stopped ==> r.pauseTime == 0
    ensures t.status == Stopped ==> r == t
  {
    if t.status != Stopped then
      t.(pauseTime := 0, status := Stopped)
    else
      t
  }

  function TogglePause(t: TimerState, now: int): (r: TimerState)
    ensures r.status == Paused <==> t.status == Running
    ensures r.status == Running <==> t.status != Running
    ensures t.status != Stopped ==> GetTime(r, now) == GetTime(t, now)
    ensures t.status == Stopped ==> GetTime(r, now) == t.pauseTime
  {
    if t.status == Running then PauseTimer(t, now) else StartTimer(t, now)
  }

  /** Administrative override of the elapsed value; the status is kept. */
  function SetTime(t: TimerState, now: int, x: int): (r: TimerState)
    ensures r.status == t.status
    ensures r.status != Stopped ==> GetTime(r, now) == x
    ensures r.status == Stopped ==> GetTime(StartTimer(r, now), now) == x
  {
    t.(pauseTime := x, startTime := now - x)
  }

  /** Pausing at `t1` and starting again at `t2` resumes the count from the
      value it had at `t1`, and from then on it keeps following the clock. */
  lemma PauseThenStartResumes(t: TimerState, t1: int, t2: int, t3: int)
    requires t.status == Running
    ensures GetTime(StartTimer(PauseTimer(t, t1), t2), t2) == GetTime(t, t1)
    ensures GetTime(StartTimer(PauseTimer(t, t1), t2), t3) == GetTime(t, t1) + (t3 - t2)
  {
  }

  /** A second start is a no-op: the elapsed value stays continuous. */
  lemma StartTwiceIsStartOnce(t: TimerState, t1: int, t2: int)
    ensures StartTimer(StartTimer(t, t1), t2) == StartTimer(t, t1)
  {
  }

  /** Invariant under which the elapsed value cannot be negative: the kept
      value is non-negative and a running interval did not start in the
      future. */
  predicate Wf(t: TimerState, now: int) {
    t.pauseTime >= 0 && (t.status == Running ==> t.startTime <= now)
  }

  lemma WfElapsedNonNegative(t: TimerState, now: int, later: int)
    requires Wf(t, now) && now <= later
    ensures GetTime(t, later) >= 0
  {
  }

  /** The operations the server performs on its timer. */
  datatype Op = Start | Pause | Reset | Toggle | Set(x: int)

  /** One operation performed at clock reading `at`. */
  datatype Step = Step(op: Op, at: int)

  function Apply(t: TimerState, op: Op, now: int): TimerState {
    match op
    case Start => StartTimer(t, now)
    case Pause => PauseTimer(t, now)
    case Reset => ResetTimer(t)
    case Toggle => TogglePause(t, now)
    case Set(x) => SetTime(t, now, x)
  }

  /** Performs the steps in order. */
  function Run(t: TimerState, steps: seq<Step>): TimerState
    decreases |steps|
  {
    if steps == [] then t else Run(Apply(t, steps[0].op, steps[0].at), steps[1..])
  }

  /** The clock never goes back (starting from `now`) and every override is
      given a non-negative value. */
  predicate Admissible(steps: seq<Step>, now: int)
    decreases |steps|
  {
    steps == [] ||
    (now <= steps[0].at
     && (steps[0].op.Set? ==> steps[0].op.x >= 0)
     && Admissible(steps[1..], steps[0].at))
  }

  /** The clock reading of the last step, or `now` when there is none. */
  function LastTime(steps: seq<Step>, now: int): (last: int)
    decreases |steps|
  {
    if steps == [] then now else LastTime(steps[1..], steps[0].at)
  }

  lemma ApplyPreservesWf(t: TimerState, op: Op, now: int, at: int)
    requires Wf(t, now) && now <= at
    requires op.Set? ==> op.x >= 0
    ensures Wf(Apply(t, op, at), at)
  {
  }

  lemma {:induction false} RunPreservesWf(t: TimerState, now: int, steps: seq<Step>)
    requires Wf(t, now) && Admissible(steps, now)
    ensures Wf(Run(t, steps), LastTime(steps, now))
    ensures now <= LastTime(steps, now)
    decreases |steps|
  {
    if steps != [] {
      ApplyPreservesWf(t, steps[0].op, now, steps[0].at);
      RunPreservesWf(Apply(t, steps[0].op, steps[0].at), steps[0].at, steps[1..]);
    }
  }

  /** The elapsed value is never negative, for any sequence of operations on a
      fresh timer, provided the clock never goes back and overrides are
      non-negative. */
  lemma ElapsedNeverNegative(created: int, steps: seq<Step>, later: int)
    requires Admissible(steps, created)
    requires LastTime(steps, created) <= later
    ensures GetTime(Run(Init(created), steps), later) >= 0
  {
    RunPreservesWf(Init(created), created, steps);
    WfElapsedNonNegative(Run(Init(created), steps), LastTime(steps, created), later);
  }
}

=== FILE: triggers.dfy ===
/** Log trigger rules: a rule fires its bound action on every line that
    contains its message. Firing is returned as the action's label rather
    than performed. */
module Triggers {
  import opened Wrappers

  /** `msg` occurs in `line` starting at position `i`. */
  ghost predicate OccursAt(msg: string, line: string, i: int) {
    0 <= i <= |line| - |msg| && line[i..i + |msg|] == msg
  }

  /** `msg` occurs somewhere in `line`. */
  ghost predicate Occurs(msg: string, line: string) {
    exists i :: OccursAt(msg, line, i)
  }

  /** Substring test, scanning the start positions left to right. */
  function ScanFrom(line: string, msg: string): bool
    decreases |line|
  {
    if |msg| > |line| then false
    else if line[..|msg|] == msg then true
    else ScanFrom(line[1..], msg)
  }

  lemma {:induction false} ScanFromIsOccurs(line: string, msg: string)
    ensures ScanFrom(line, msg) <==> Occurs(msg, line)
    decreases |line|
  {
    if |msg| > |line| {
    } else if line[..|msg|] == msg {
      assert OccursAt(msg, line, 0);
    } else {
      ScanFromIsOccurs(line[1..], msg);
      if Occurs(msg, line) {
        var i :| OccursAt(msg, line, i);
        assert i != 0;
        assert line[1..][i - 1..i - 1 + |msg|] == line[i..i + |msg|];
        assert OccursAt(msg, line[1..], i - 1);
      }
      if Occurs(msg, line[1..]) {
        var i :| OccursAt(msg, line[1..], i);
        assert line[i + 1..i + 1 + |msg|] == line[1..][i..i + |msg|];
        assert OccursAt(msg, line, i + 1);
      }
    }
  }

  /** The substring test a checker applies to a line: true exactly when the
      message occurs somewhere in the line (the empty message occurs in every
      line). */
  function Contains(line: string, msg: string): (r: bool)
    ensures r <==> Occurs(msg, line)
  {
    ScanFromIsOccurs(line, msg);
    ScanFrom(line, msg)
  }

  datatype LineChecker<A> = LineChecker(action: A, message: string)

  /** The checker's test; the action fires exactly when it holds. */
  predicate Matches<A>(c: LineChecker<A>, line: string) {
    Contains(line, c.message)
  }

  /** Checks one line: the bound action fires once if the message occurs in
      the line, and nothing fires otherwise. */
  function Check<A>(c: LineChecker<A>, line: string): (fired: Option<A>)
    ensures fired.Some? <==> Occurs(c.message, line)
    ensures fired.Some? ==> fired.value == c.action
  {
    if Matches(c, line) then Some(c.action) else None
  }

  /** The checkers that match a line, in checker order. */
  function Matching<A(!new)>(cs: seq<LineChecker<A>>, line: string): (m: seq<LineChecker<A>>)
    ensures forall c :: multiset(m)[c] == (if Matches(c, line) then multiset(cs)[c] else 0)
    ensures |m| <= |cs|
    decreases |cs|
  {
    if cs == [] then []
    else
      assert cs == [cs[0]] + cs[1..];
      (if Matches(cs[0], line) then [cs[0]] else []) + Matching(cs[1..], line)
  }

  /** The actions bound to the checkers, in checker order. */
  function Actions<A>(cs: seq<LineChecker<A>>): (r: seq<A>)
    ensures |r| == |cs|
    decreases |cs|
  {
    if cs == [] then [] else [cs[0].action] + Actions(cs[1..])
  }

  lemma {:induction false} ActionsAt<A>(cs: seq<LineChecker<A>>, i: nat)
    requires i < |cs|
    ensures Actions(cs)[i] == cs[i].action
    decreases i
  {
    if i > 0 {
      ActionsAt(cs[1..], i - 1);
    }
  }

  /** An action is among those bound to the matching checkers exactly when
      some checker bound to it matches the line. */
  lemma {:induction false} MatchingFires<A(!new)>(cs: seq<LineChecker<A>>, line: string)
    ensures forall a :: a in Actions(Matching(cs, line)) <==> exists c :: c in cs && c.action == a && Matches(c, line)
  {
    var m := Matching(cs, line);
    forall a
      ensures a in Actions(m) <==> exists c :: c in cs && c.action == a && Matches(c, line)
    {
      if a in Actions(m) {
        var i :| 0 <= i < |m| && Actions(m)[i] == a;
        ActionsAt(m, i);
        assert multiset(m)[m[i]] > 0;
      }
      if exists c :: c in cs && c.action == a && Matches(c, line) {
        var c :| c in cs && c.action == a && Matches(c, line);
        assert multiset(m)[c] > 0;
        var i :| 0 <= i < |m| && m[i] == c;
        ActionsAt(m, i);
        assert Actions(m)[i] == a;
      }
    }
  }

  /** The actions fired by running every checker on one line: an action fires
      exactly when some checker bound to it has a message occurring in the
      line, and each checker fires at most once. */
  function CheckLine<A(!new)>(cs: seq<LineChecker<A>>, line: string): (r: seq<A>)
    ensures forall a :: a in r <==> exists c :: c in cs && c.action == a && Occurs(c.message, line)
    ensures |r| <= |cs|
  {
    MatchingFires(cs, line);
    Actions(Matching(cs, line))
  }

  /** Running the checkers on a line fires the first checker's action (once,
      if its message occurs) and then whatever the rest fire: each matching
      checker fires once, so two matching checkers bound to the same action
      fire it twice. */
  lemma {:induction false} CheckLineCons<A(!new)>(c: LineChecker<A>, cs: seq<LineChecker<A>>, line: string)
    ensures CheckLine([c] + cs, line) ==
      (match Check(c, line) case Some(a) => [a] case None => []) + CheckLine(cs, line)
  {
    assert ([c] + cs)[1..] == cs && [c][1..] == [];
    var m0 := if Matches(c, line) then [c] else [];
    assert Matching([c] + cs, line) == m0 + Matching(cs, line);
    ActionsAppend(m0, Matching(cs, line));
  }

  /** Two checkers tried in turn fire the first one's action, then the
      second one's, each only if it matches. */
  lemma {:induction false} CheckLineTwo<A(!new)>(c0: LineChecker<A>, c1: LineChecker<A>, line: string)
    ensures CheckLine([c0, c1], line) ==
      (if Matches(c0, line) then [c0.action] else []) + (if Matches(c1, line) then [c1.action] else [])
  {
    assert [c0, c1][1..] == [c1] && [c1][1..] == [];
    var m1 := if Matches(c1, line) then [c1] else [];
    assert Matching([c1], line) == m1 + Matching([], line);
    var m0 := if Matches(c0, line) then [c0] else [];
    assert Matching([c0, c1], line) == m0 + m1;
    ActionsAppend(m0, m1);
  }

  lemma DeleteAtMultiset<T>(ys: seq<T>, k: nat)
    requires k < |ys|
    ensures multiset(ys[..k] + ys[k + 1..]) == multiset(ys) - multiset{ys[k]}
  {
    assert ys == ys[..k] + [ys[k]] + ys[k + 1..];
  }

  lemma {:induction false} ActionsAppend<A>(xs: seq<LineChecker<A>>, ys: seq<LineChecker<A>>)
    ensures Actions(xs + ys) == Actions(xs) + Actions(ys)
    decreases |xs|
  {
    if xs == [] {
      assert xs + ys == ys;
    } else {
      assert (xs + ys)[1..] == xs[1..] + ys;
      ActionsAppend(xs[1..], ys);
    }
  }

  lemma {:induction false} ActionsDeleteAt<A>(ys: seq<LineChecker<A>>, k: nat)
    requires k < |ys|
    ensures multiset(Actions(ys)) == multiset(Actions(ys[..k] + ys[k + 1..])) + multiset{ys[k].action}
  {
    assert ys[k..] == [ys[k]] + ys[k + 1..];
    assert ys == ys[..k] + ys[k..];
    ActionsAppend(ys[..k], ys[k..]);
    ActionsAppend(ys[..k], ys[k + 1..]);
    assert Actions(ys[k..]) == [ys[k].action] + Actions(ys[k + 1..]);
  }

  /** In two permutations of each other, the head of the first sits at some
      position `k` of the second, and removing both leaves permutations. */
  lemma {:induction false} MatchHead<T>(xs: seq<T>, ys: seq<T>) returns (k: nat)
    requires xs != [] && multiset(xs) == multiset(ys)
    ensures k < |ys| && ys[k] == xs[0]
    ensures multiset(xs[1..]) == multiset(ys[..k] + ys[k + 1..])
  {
    assert xs[0] in ys by { assert xs[0] in multiset(xs); }
    k := IndexOf(ys, xs[0]);
    DropHeadMultiset(xs);
    DeleteAtMultiset(ys, k);
  }

  lemma DropHeadMultiset<T>(xs: seq<T>)
    requires xs != []
    ensures multiset(xs[1..]) == multiset(xs) - multiset{xs[0]}
  {
    assert xs == [xs[0]] + xs[1..];
  }

  /** Some position of `ys` holds `x`. */
  lemma IndexOf<T>(ys: seq<T>, x: T) returns (k: nat)
    requires x in ys
    ensures k < |ys| && ys[k] == x
  {
    k :| 0 <= k < |ys| && ys[k] == x;
  }

  lemma {:induction false} ActionsPermutation<A>(xs: seq<LineChecker<A>>, ys: seq<LineChecker<A>>)
    requires multiset(xs) == multiset(ys)
    ensures multiset(Actions(xs)) == multiset(Actions(ys))
    decreases |xs|
  {
    if xs != [] {
      var x := xs[0];
      var k := MatchHead(xs, ys);
      var xs', ys' := xs[1..], ys[..k] + ys[k + 1..];
      ActionsPermutation(xs', ys');
      ActionsDeleteAt(ys, k);
      assert multiset(Actions(xs)) == multiset(Actions(xs')) + multiset{x.action} by {
        ActionsDeleteAt(xs, 0);
        assert xs[..0] + xs[1..] == xs';
      }
    }
  }

  /** The checkers are held as an unordered set: the order in which they are
      tried changes the order of the fired actions but not which actions
      fire or how often. */
  lemma {:induction false} CheckLineOrderIndependent<A(!new)>(cs: seq<LineChecker<A>>, ds: seq<LineChecker<A>>, line: string)
    requires multiset(cs) == multiset(ds)
    ensures multiset(CheckLine(cs, line)) == multiset(CheckLine(ds, line))
  {
    var m := Matching(cs, line);
    var n := Matching(ds, line);
    assert forall c :: multiset(m)[c] == multiset(n)[c];
    assert multiset(m) == multiset(n);
    ActionsPermutation(m, n);
  }

  /** The actions fired by checking every line in order: an action fires
      exactly when it fires on some line. */
  function ScanLines<A(!new)>(cs: seq<LineChecker<A>>, lines: seq<string>): (r: seq<A>)
    ensures forall a :: a in r <==> exists i :: 0 <= i < |lines| && a in CheckLine(cs, lines[i])
    decreases |lines|
  {
    if lines == [] then []
    else
      assert forall i :: 0 <= i < |lines| - 1 ==> lines[1..][i] == lines[i + 1];
      CheckLine(cs, lines[0]) + ScanLines(cs, lines[1..])
  }

  /** Trying the checkers in another order fires the same actions, as often,
      over any block of lines. */
  lemma {:induction false} ScanLinesOrderIndependent<A(!new)>(cs: seq<LineChecker<A>>, ds: seq<LineChecker<A>>, lines: seq<string>)
    requires multiset(cs) == multiset(ds)
    ensures multiset(ScanLines(cs, lines)) == multiset(ScanLines(ds, lines))
    decreases |lines|
  {
    if lines != [] {
      CheckLineOrderIndependent(cs, ds, lines[0]);
      ScanLinesOrderIndependent(cs, ds, lines[1..]);
    }
  }

  /** Scanning two blocks of lines fires what scanning each block fires. */
  lemma {:induction false} ScanLinesAppend<A(!new)>(cs: seq<LineChecker<A>>, xs: seq<string>, ys: seq<string>)
    ensures ScanLines(cs, xs + ys) == ScanLines(cs, xs) + ScanLines(cs, ys)
    decreases |xs|
  {
    if xs == [] {
      assert xs + ys == ys;
    } else {
      assert (xs + ys)[1..] == xs[1..] + ys;
      ScanLinesAppend(cs, xs[1..], ys);
    }
  }
}

=== FILE: wire.dfy ===
/** The text the server pushes to a client: "end" when the session ends,
    "stop" when the timer is stopped, and "<status>:<elapsed>" otherwise. The
    elapsed value is written as a decimal integer number of ticks. `Parse` is
    the client-side reading of that text; the round trip shows every push is
    unambiguous. */
module Wire {
  import opened Wrappers
  import opened Timer

  datatype Push = End | Stop | Report(status: Status, elapsed: int)

  function StatusName(s: Status): (name: string)
    ensures |name| > 0 && ':' !in name
  {
    match s
    case Stopped => "stopped"
    case Running => "running"
    case Paused => "paused"
  }

  function StatusFromName(name: string): (r: Option<Status>)
    ensures forall s :: r == Some(s) <==> name == StatusName(s)
  {
    if name == "stopped" then Some(Stopped)
    else if name == "running" then Some(Running)
    else if name == "paused" then Some(Paused)
    else None
  }

  predicate IsDigit(c: char) {
    '0' <= c <= '9'
  }

  function DigitChar(d: nat): (c: char)
    requires d < 10
    ensures IsDigit(c)
  {
    ('0' as int + d) as char
  }

  function DigitValue(c: char): (d: nat)
    requires IsDigit(c)
    ensures d < 10 && DigitChar(d) == c
  {
    c as int - '0' as int
  }

  /** Decimal digits of `n`, most significant first, without leading zeros. */
  function NatText(n: nat): (s: string)
    ensures |s| > 0
    ensures forall i :: 0 <= i < |s| ==> IsDigit(s[i])
    decreases n
  {
    if n < 10 then [DigitChar(n)] else NatText(n / 10) + [DigitChar(n % 10)]
  }

  /** The number a string of digits denotes. */
  function DigitsValue(s: string): nat
    requires forall i :: 0 <= i < |s| ==> IsDigit(s[i])
    decreases |s|
  {
    if s == [] then 0 else DigitsValue(s[..|s| - 1]) * 10 + DigitValue(s[|s| - 1])
  }

  function ParseNat(s: string): (r: Option<nat>)
    ensures r.Some? ==> |s| > 0
  {
    if |s| > 0 && forall i :: 0 <= i < |s| ==> IsDigit(s[i]) then Some(DigitsValue(s)) else None
  }

  lemma {:induction false} NatTextRoundTrip(n: nat)
    ensures ParseNat(NatText(n)) == Some(n)
    decreases n
  {
    var s := NatText(n);
    if n >= 10 {
      NatTextRoundTrip(n / 10);
      assert s[..|s| - 1] == NatText(n / 10);
      assert s[|s| - 1] == DigitChar(n % 10);
      assert DigitValue(DigitChar(n % 10)) == n % 10;
    } else {
      assert s == [DigitChar(n)];
      assert DigitValue(DigitChar(n)) == n;
      assert DigitsValue(s) == DigitsValue([]) * 10 + DigitValue(s[0]);
    }
  }

  function IntText(e: int): (s: string)
    ensures |s| > 0
  {
    if e < 0 then "-" + NatText(-e) else NatText(e)
  }

  function ParseInt(s: string): Option<int> {
    if |s| > 0 && s[0] == '-' then
      match ParseNat(s[1..])
      case Some(n) => Some(-(n as int))
      case None => None
    else
      match ParseNat(s)
      case Some(n) => Some(n)
      case None => None
  }

  lemma IntTextRoundTrip(e: int)
    ensures ParseInt(IntText(e)) == Some(e)
  {
    if e < 0 {
      NatTextRoundTrip(-e);
      assert IntText(e)[1..] == NatText(-e);
    } else {
      NatTextRoundTrip(e);
      assert IsDigit(NatText(e)[0]);
    }
  }

  /** The text sent on the wire for a push. */
  function Render(p: Push): string {
    match p
    case End => "end"
    case Stop => "stop"
    case Report(status, elapsed) => StatusName(status) + ":" + IntText(elapsed)
  }

  /** Index of the first ':' in `s`, if any. */
  function ColonIndex(s: string): (r: Option<nat>)
    ensures r.Some? ==> r.value < |s| && s[r.value] == ':' && ':' !in s[..r.value]
    ensures r.None? ==> ':' !in s
    decreases |s|
  {
    if s == [] then None
    else if s[0] == ':' then Some(0)
    else
      match ColonIndex(s[1..])
      case Some(k) => (assert s[..k + 1] == [s[0]] + s[1..][..k]; Some(k + 1))
      case None => (assert s == [s[0]] + s[1..]; None)
  }

  /** Reads a pushed text back; `None` for text the server never sends. */
  function Parse(s: string): Option<Push> {
    if s == "end" then Some(End)
    else if s == "stop" then Some(Stop)
    else
      match ColonIndex(s)
      case None => None
      case Some(k) =>
        match (StatusFromName(s[..k]), ParseInt(s[k + 1..]))
        case (Some(status), Some(elapsed)) => Some(Report(status, elapsed))
        case _ => None
  }

  lemma ColonAfterName(name: string, rest: string)
    requires ':' !in name
    ensures ColonIndex(name + ":" + rest) == Some(|name|)
  {
    var s := name + ":" + rest;
    assert s[|name|] == ':';
    assert s[..|name|] == name;
  }

  /** Every push is read back as itself. */
  lemma ParseRender(p: Push)
    ensures Parse(Render(p)) == Some(p)
  {
    match p
    case End =>
    case Stop =>
    case Report(status, elapsed) =>
      var name := StatusName(status);
      var s := Render(p);
      ColonAfterName(name, IntText(elapsed));
      assert s[..|name|] == name;
      assert s[|name| + 1..] == IntText(elapsed);
      IntTextRoundTrip(elapsed);
      assert s != "end" && s != "stop" by {
        assert s[|name|] == ':';
        assert ':' !in "end" && ':' !in "stop";
      }
  }

  /** Distinct pushes have distinct texts. */
  lemma RenderInjective(p: Push, q: Push)
    requires Render(p) == Render(q)
    ensures p == q
  {
    ParseRender(p);
    ParseRender(q);
  }
}

=== FILE: wiring.dfy ===
/** How the log tailer drives the timer server: the two trigger rules the
    server is started with, and the server transitions their actions stand
    for. */
module Wiring {
  import opened Timer
  import opened Wire
  import opened Server
  import opened Triggers
  import opened Tailer

  /** The two server transitions a log line can trigger. */
  datatype Action = StartAction | ResetAction

  /** A line announcing the in-game timer was set to zero starts the timer;
      a line announcing the game server stops resets it. */
  const Rules: seq<LineChecker<Action>> := [
    LineChecker(StartAction, "Set the time to 0"),
    LineChecker(ResetAction, "Stopping the server")
  ]

  /** What an action does to the timer alone. */
  function Act(t: TimerState, a: Action, now: int): TimerState {
    match a
    case StartAction => Timer.StartTimer(t, now)
    case ResetAction => Timer.ResetTimer(t)
  }

  /** The timer after each action of `actions`, performed in order from `t`. */
  function Trace(t: TimerState, actions: seq<Action>, now: int): (ts: seq<TimerState>)
    ensures |ts| == |actions|
    decreases |actions|
  {
    if actions == [] then []
    else
      var t1 := Act(t, actions[0], now);
      [t1] + Trace(t1, actions[1..], now)
  }

  /** `sends` is one broadcast to `clients` per timer of `ts`, in order: block
      `k` pushes the status of `ts[k]` to every client, in registry order. */
  predicate BroadcastsEach(sends: seq<Send>, clients: seq<ClientId>, ts: seq<TimerState>, now: int)
    decreases |ts|
  {
    if ts == [] then sends == []
    else
      |clients| <= |sends|
      && Broadcasts(sends[..|clients|], clients, StatusPush(ts[0], now))
      && BroadcastsEach(sends[|clients|..], clients, ts[1..], now)
  }

  /** Performs one fired action on the server: the timer makes the
      action's transition and every client is sent the resulting status. */
  function Perform(s: ServerState, a: Action, now: int): (o: Outcome)
    ensures o.server == s.(timer := Act(s.timer, a, now))
    ensures Broadcasts(o.sends, s.clients, StatusPush(o.server.timer, now))
    ensures a == StartAction ==> o.server.timer.status == Running
    ensures a == ResetAction ==> o.server.timer.status == Stopped
  {
    match a
    case StartAction => Server.StartTimer(s, now)
    case ResetAction => Server.ResetTimer(s, now)
  }

  /** Performs fired actions in order; each one broadcasts the status it
      leaves the timer in, and the timer ends where the last action left it. */
  function PerformAll(s: ServerState, actions: seq<Action>, now: int): (o: Outcome)
    ensures o.server.clients == s.clients && o.server.password == s.password
    ensures actions == [] ==> o == Outcome(s, [])
    ensures actions != [] ==> o.server.timer == Trace(s.timer, actions, now)[|actions| - 1]
    ensures BroadcastsEach(o.sends, s.clients, Trace(s.timer, actions, now), now)
    ensures actions != [] && actions[|actions| - 1] == StartAction ==> o.server.timer.status == Running
    ensures actions != [] && actions[|actions| - 1] == ResetAction ==> o.server.timer.status == Stopped
    decreases |actions|
  {
    if actions == [] then Outcome(s, [])
    else
      var o := Perform(s, actions[0], now);
      var rest := PerformAll(o.server, actions[1..], now);
      var sends := o.sends + rest.sends;
      assert sends[..|s.clients|] == o.sends && sends[|s.clients|..] == rest.sends;
      Outcome(rest.server, sends)
  }

  /** One broadcast per timer: the sends number the timers times the clients. */
  lemma {:induction false} BroadcastsEachLength(sends: seq<Send>, clients: seq<ClientId>, ts: seq<TimerState>, now: int)
    requires BroadcastsEach(sends, clients, ts, now)
    ensures |sends| == |ts| * |clients|
    decreases |ts|
  {
    if ts != [] {
      BroadcastsEachLength(sends[|clients|..], clients, ts[1..], now);
    }
  }

  datatype TailOutcome = TailOutcome(server: ServerState, tracker: Tracker, sends: seq<Send>)

  /** One poll of the log followed by the transitions its new lines trigger.
      `rules` are the two registered checkers in whichever order the
      registry's set yields them. */
  function TailTick(s: ServerState, tr: Tracker, rules: seq<LineChecker<Action>>, view: FileView, now: int): (r: TailOutcome)
    requires multiset(rules) == multiset(Rules)
    ensures r.server.clients == s.clients && r.server.password == s.password
    ensures r.tracker == Tick(tr, rules, view).tracker
    // a missing file, an unchanged modification time or a failed read fires nothing
    ensures view.Missing? ==> r == TailOutcome(s, tr, [])
    ensures !view.Missing? && view.mtime == tr.lastMTime ==> r == TailOutcome(s, tr, [])
    ensures view.Unreadable? ==> r.server == s && r.sends == []
    // the actions that fire do not depend on the order the rules are tried in
    ensures multiset(Tick(tr, rules, view).fired) == multiset(Tick(tr, Rules, view).fired)
    // one broadcast per fired action, of the status that action left
    ensures BroadcastsEach(r.sends, s.clients, Trace(s.timer, Tick(tr, rules, view).fired, now), now)
    // the fired actions are performed on the server, in order
    ensures r.server == PerformAll(s, Tick(tr, rules, view).fired, now).server
    ensures var fired := Tick(tr, rules, view).fired;
      fired != [] ==> r.server.timer == Trace(s.timer, fired, now)[|fired| - 1]
    ensures |r.sends| == |Tick(tr, rules, view).fired| * |s.clients|
  {
    var scan := Tick(tr, rules, view);
    TickOrderIndependent(tr, rules, Rules, view);
    var o := PerformAll(s, scan.fired, now);
    BroadcastsEachLength(o.sends, s.clients, Trace(s.timer, scan.fired, now), now);
    TailOutcome(o.server, scan.tracker, o.sends)
  }

  /** A sequence with no elements, or with exactly one, is determined by
      its multiset. */
  lemma FromMultiset<T>(q: seq<T>, x: T)
    ensures multiset(q) == multiset{} ==> q == []
    ensures multiset(q) == multiset{x} ==> q == [x]
  {
    assert |multiset(q)| == |q|;
    if multiset(q) == multiset{x} {
      assert q[0] in multiset(q);
    }
  }

  /** Whatever order the rules are tried in, a line fires start once if it
      announces the time was set to zero, reset once if it announces the
      game server stopping, and nothing else. */
  lemma {:induction false} RulesOnLine(rules: seq<LineChecker<Action>>, line: string)
    requires multiset(rules) == multiset(Rules)
    ensures multiset(CheckLine(rules, line)) ==
      (if Contains(line, "Set the time to 0") then multiset{StartAction} else multiset{})
      + (if Contains(line, "Stopping the server") then multiset{ResetAction} else multiset{})
  {
    CheckLineTwo(Rules[0], Rules[1], line);
    assert Rules == [Rules[0], Rules[1]];
    CheckLineOrderIndependent(rules, Rules, line);
  }

  /** The registry's set leaves the order of the two rules open, and on a line
      carrying both phrases that order decides the outcome: start then reset
      leaves the timer stopped, reset then start leaves it running. */
  lemma {:induction false} BothPhrasesOrderDecides(s: ServerState, line: string, now: int)
    requires Contains(line, "Set the time to 0") && Contains(line, "Stopping the server")
    ensures CheckLine(Rules, line) == [StartAction, ResetAction]
    ensures CheckLine([Rules[1], Rules[0]], line) == [ResetAction, StartAction]
    ensures PerformAll(s, [StartAction, ResetAction], now).server.timer.status == Stopped
    ensures PerformAll(s, [ResetAction, StartAction], now).server.timer.status == Running
  {
    CheckLineTwo(Rules[0], Rules[1], line);
    CheckLineTwo(Rules[1], Rules[0], line);
    assert Rules == [Rules[0], Rules[1]];
  }

  /** A line that does not announce the server stopping fires start alone if
      it announces the time was set to zero, and nothing otherwise. */
  lemma {:induction false} StartOnlyLine(rules: seq<LineChecker<Action>>, line: string)
    requires multiset(rules) == multiset(Rules)
    requires !Contains(line, "Stopping the server")
    ensures CheckLine(rules, line) == if Contains(line, "Set the time to 0") then [StartAction] else []
  {
    RulesOnLine(rules, line);
    FromMultiset(CheckLine(rules, line), StartAction);
  }

  /** Three lines, only the second announcing the time was set to zero and
      none the server stopping, fire start exactly once. */
  lemma {:induction false} ThreeLinesFireStartOnce(rules: seq<LineChecker<Action>>, lines: seq<string>)
    requires multiset(rules) == multiset(Rules)
    requires |lines| == 3
    requires Contains(lines[1], "Set the time to 0")
    requires !Contains(lines[0], "Set the time to 0") && !Contains(lines[2], "Set the time to 0")
    requires forall i :: 0 <= i < 3 ==> !Contains(lines[i], "Stopping the server")
    ensures ScanLines(rules, lines) == [StartAction]
  {
    StartOnlyLine(rules, lines[0]);
    StartOnlyLine(rules, lines[1]);
    StartOnlyLine(rules, lines[2]);
    ScanMiddleOnly(rules, lines);
  }

  /** Three lines of which only the middle one fires, and fires start alone,
      fire start exactly once. */
  lemma {:induction false} ScanMiddleOnly(rules: seq<LineChecker<Action>>, lines: seq<string>)
    requires |lines| == 3
    requires CheckLine(rules, lines[0]) == [] && CheckLine(rules, lines[2]) == []
    requires CheckLine(rules, lines[1]) == [StartAction]
    ensures ScanLines(rules, lines) == [StartAction]
  {
    var l2, l3 := lines[1..], lines[2..];
    assert l2[0] == lines[1] && l3[0] == lines[2];
    assert l2[1..] == l3 && l3[1..] == [];
    assert ScanLines(rules, l3) == [];
    assert ScanLines(rules, l2) == [StartAction];
  }

  /** Performing a single start on a timer that was not running leaves it
      running and sends every client "running" with the resumed value. */
  lemma {:induction false} StartOnceStarts(s: ServerState, now: int)
    requires s.timer.status != Running
    ensures PerformAll(s, [StartAction], now).server.timer.status == Running
    ensures Broadcasts(PerformAll(s, [StartAction], now).sends, s.clients, Report(Running, s.timer.pauseTime))
  {
    var o := Server.StartTimer(s, now);
    assert [StartAction][1..] == [];
    assert PerformAll(s, [StartAction], now) == Outcome(o.server, o.sends + []);
    assert o.sends + [] == o.sends;
  }

  /** A tick that sees a new modification time on a file whose lines fire
      start exactly once, by a tracker that has scanned no lines yet, starts
      a timer that was not running, and every client is sent "running" with
      the value the timer resumes from. */
  lemma {:induction false} FirstTickFiringStart(s: ServerState, tr: Tracker, rules: seq<LineChecker<Action>>, lines: seq<string>, now: int, mtime: int)
    requires multiset(rules) == multiset(Rules)
    requires ScanLines(rules, lines) == [StartAction]
    requires tr.lastLine == 0 && mtime != tr.lastMTime
    requires s.timer.status != Running
    ensures Tick(tr, rules, Present(mtime, lines)).fired == [StartAction]
    ensures var r := TailTick(s, tr, rules, Present(mtime, lines), now);
      r.tracker == Tracker(|lines|, mtime)
      && r.server.timer.status == Running
      && Broadcasts(r.sends, s.clients, Report(Running, s.timer.pauseTime))
  {
    assert ResumeAt(tr, lines) == 0 && lines[0..] == lines;
    var scan := Tick(tr, rules, Present(mtime, lines));
    assert scan.fired == [StartAction];
    StartOnceStarts(s, now);
  }

  /** A log that grows from empty to three lines, only the second of which
      announces the time was set to zero (and none the server stopping),
      starts the timer exactly once whatever the order of the rules, and
      every client is sent "running" with the value the timer resumes from
      (0 for a fresh or reset timer). The tracker may have seen the empty
      file at any earlier modification time. */
  lemma {:induction false} GrowingLogStartsTimer(s: ServerState, tr: Tracker, rules: seq<LineChecker<Action>>, lines: seq<string>, now: int, mtime: int)
    requires multiset(rules) == multiset(Rules)
    requires |lines| == 3
    requires Contains(lines[1], "Set the time to 0")
    requires !Contains(lines[0], "Set the time to 0") && !Contains(lines[2], "Set the time to 0")
    requires forall i :: 0 <= i < 3 ==> !Contains(lines[i], "Stopping the server")
    requires tr.lastLine == 0 && mtime != tr.lastMTime
    requires s.timer.status != Running
    ensures Tick(tr, rules, Present(mtime, lines)).fired == [StartAction]
    ensures var r := TailTick(s, tr, rules, Present(mtime, lines), now);
      r.tracker == Tracker(3, mtime)
      && r.server.timer.status == Running
      && Broadcasts(r.sends, s.clients, Report(Running, s.timer.pauseTime))
  {
    ThreeLinesFireStartOnce(rules, lines);
    FirstTickFiringStart(s, tr, rules, lines, now, mtime);
  }
}

=== FILE: wrappers.dfy ===
/** Optional values, used for the server's optional shared password and for
    partial decoders. */
module Wrappers {

  datatype Option<+T> = None | Some(value: T)
}
